=== FILE: README.md ===
# XY-plot axis dialog: a Dafny model

This project models the decision logic of LibreVNA's XY-plot axis dialog
(`XYplotAxisDialog`). The dialog configures the X axis and two Y axes of a
trace plot. For each axis it sets the quantity shown, log or linear scale,
auto or manual range, and the min, max and division values. The toolkit
widgets are not modelled. What remains is a set of pure functions:

- `Compatibility` holds the two tables.
  - `SupportedYAxis` gives the Y quantities allowed for a data source (network analyzer `VNA`, spectrum analyzer `SA`, or any other source) and an X quantity.
  - `IsSupported` says whether an X quantity can be selected for a data source.
  - The lemmas check `SupportedYAxis` against an independent column-by-column reading of the table (`OfferedFor`) and against `IsSupported`.
- `XAxisModes` turns the X range mode (`UseSpan`, `FitTraces`, `Manual`) into the "auto" check box plus the auto-mode selector, and back again. Decoding an encoding always gives back the mode. The reverse round trip holds for checked controls whose selector is on item 0 or 1; unchecked controls forget the selector position.
- `Widgets` models the signal handlers that enable or disable the range widgets.
  - One predicate per axis states the enablement rule the handlers implement.
  - The handlers' contracts, together with `YAutoHandlerFollowsRule`, show that each handler leaves the flags following that rule.
- `AxisDialog` models the whole dialog as a record `Form`.
  - `XAxisTypeChanged` is the X type handler, written as a pure reducer.
  - `Step` applies one user edit: choosing an item of a type box or of the auto-mode selector, toggling an auto check box, choosing log or linear, or typing range values. An edit of a disabled widget or item is ignored.
  - `Open` is the constructor.
  - `Accept` reads the settings back when the user confirms.
  - The invariant `Consistent` holds after opening a consistent plot and after every edit. So accepting the dialog only ever commits settings the tables allow (`CommitsConsistentSettings`).

Enumerations carry a catch-all constructor (`OtherSource`, `OtherX`, `OtherY`). It stands for enumerators the dialog does not name, because its `switch` statements have `default:` branches. A combo box is modelled as its list of items, one per enumerator in declaration order, plus one enabled flag per item. The enumeration headers are not part of this model. The only fact about the Y order used is that item 0 is `Disabled`. The dialog's code relies on this when it resets a Y selection to index 0 and when it tests `index != 0`.

## Model

| member | source | states |
|---|---|---|
| `Compatibility.SupportedYAxis` | Software/PC_Application/Traces/xyplotaxisdialog.cpp:216-257 | `Disabled` is allowed for every source and X quantity |
| `Compatibility.SupportedYAxisByColumn` | Software/PC_Application/Traces/xyplotaxisdialog.cpp:218-256 | a Y quantity is allowed iff the column reading says so: Magnitude for VNA against Frequency/Power and for SA against Frequency; the other eleven frequency-domain quantities only for VNA against Frequency/Power; the four time-domain ones only for VNA against Time/Distance; nothing else, under any other source or X quantity |
| `Compatibility.FrequencyTableSize` | Software/PC_Application/Traces/xyplotaxisdialog.cpp:220-236 | VNA against Frequency or Power offers exactly thirteen quantities, `Disabled` included |
| `Compatibility.TimeTableSize` | Software/PC_Application/Traces/xyplotaxisdialog.cpp:237-243 | VNA against Time or Distance offers exactly five quantities, `Disabled` included |
| `Compatibility.SpectrumAnalyzerWithinNetworkAnalyzer` | Software/PC_Application/Traces/xyplotaxisdialog.cpp:220-255 | whatever SA offers against an X quantity, VNA offers too |
| `Compatibility.OfferedQuantities` | Software/PC_Application/Traces/xyplotaxisdialog.cpp:218-273 | every offered quantity other than `Disabled` is frequency-domain or time-domain, and is offered only when the X quantity is selectable |
| `Compatibility.DomainsDoNotMix` | Software/PC_Application/Traces/xyplotaxisdialog.cpp:220-246 | time-domain quantities are offered only against Time/Distance, and frequency-domain ones other than Magnitude only against Frequency/Power |
| `Compatibility.IsSupported` | Software/PC_Application/Traces/xyplotaxisdialog.cpp:259-273 | VNA: every X quantity is selectable; SA: only Frequency; any other source: none |
| `Compatibility.SelectableIffOffersQuantity` | Software/PC_Application/Traces/xyplotaxisdialog.cpp:216-273 | for a named X quantity, it is selectable iff the table offers some Y quantity besides `Disabled` |
| `XAxisModes.EncodeMode` | Software/PC_Application/Traces/xyplotaxisdialog.cpp:141-146 | auto is checked iff the mode is not Manual; the selector is on item 0 iff the mode is UseSpan, otherwise on item 1 |
| `XAxisModes.DecodeMode` | Software/PC_Application/Traces/xyplotaxisdialog.cpp:162-171 | unchecked gives Manual; checked on item 0 gives UseSpan; checked on any other item gives FitTraces |
| `XAxisModes.DecodeEncode` | Software/PC_Application/Traces/xyplotaxisdialog.cpp:141-171 | decoding the encoding of a mode returns that mode |
| `XAxisModes.EncodeDecode` | Software/PC_Application/Traces/xyplotaxisdialog.cpp:141-171 | checked controls on item 0 or 1 are re-encoded unchanged |
| `XAxisModes.SelectorIgnoredWhenManual` | Software/PC_Application/Traces/xyplotaxisdialog.cpp:163-170 | with auto unchecked, the selector's position does not affect the mode |
| `Widgets.YRule` | Software/PC_Application/Traces/xyplotaxisdialog.cpp:46-64 | the Y enablement rule: linear and auto are enabled iff the axis is shown (index not 0), min/max/divs iff it is shown and auto is off |
| `Widgets.XRule` | Software/PC_Application/Traces/xyplotaxisdialog.cpp:87-111 | the X enablement rule: min/max are enabled iff auto is off, divs iff auto is off and linear is chosen, the auto-mode selector iff auto is on |
| `Widgets.OnYTypeChanged` | Software/PC_Application/Traces/xyplotaxisdialog.cpp:46-53 | the Y type handler sets all flags of the axis, so they follow the rule for the new index and the auto check box |
| `Widgets.OnYAutoToggled` | Software/PC_Application/Traces/xyplotaxisdialog.cpp:60-64 | the Y auto handler leaves linear and auto alone and makes min/max/divs editable iff auto is now off |
| `Widgets.OnXAutoToggled` | Software/PC_Application/Traces/xyplotaxisdialog.cpp:87-92 | the X auto handler sets all X flags, so they follow the rule for the new auto state and the linear button |
| `Widgets.OnXLogToggled` | Software/PC_Application/Traces/xyplotaxisdialog.cpp:109-111 | the X log handler leaves min/max and the auto-mode selector alone, makes divs editable iff linear is chosen and auto is off, and so keeps a rule-following axis on the rule |
| `Widgets.YAutoHandlerFollowsRule` | Software/PC_Application/Traces/xyplotaxisdialog.cpp:60-64 | toggling Y auto on a shown axis keeps the Y rule |
| `Widgets.YAutoHandlerIgnoresType` | Software/PC_Application/Traces/xyplotaxisdialog.cpp:60-64 | the Y auto handler ignores the type: unchecking auto on a `Disabled` axis would unlock min/max/divs against the rule |
| `Widgets.ItemFlags` | Software/PC_Application/Traces/xyplotaxisdialog.cpp:179-185 | one flag per item, each true iff its item is allowed |
| `AxisDialog.XSelectable` | Software/PC_Application/Traces/xyplotaxisdialog.cpp:36-43 | with a spectrum analyzer only the Frequency X item stays enabled; with any other source every X item stays enabled |
| `AxisDialog.ResetIfUnsupported` | Software/PC_Application/Traces/xyplotaxisdialog.cpp:186-192 | an allowed Y selection and its flags are kept; an unallowed one moves to index 0 and the type handler leaves its flags on the rule for index 0 |
| `AxisDialog.RestrictYAxes` | Software/PC_Application/Traces/xyplotaxisdialog.cpp:179-192 | a Y item is enabled iff it is allowed; afterwards both selections are allowed; an allowed selection is unchanged, an unallowed one goes to index 0 and that axis's widgets follow the rule; nothing else changes |
| `AxisDialog.RestrictXAxis` | Software/PC_Application/Traces/xyplotaxisdialog.cpp:194-208 | span item and log are enabled iff the axis is Frequency; on Frequency the X choices are unchanged; otherwise the auto-mode index is not 0 (unchanged if it was not 0) and log is off, so the decoded mode is never UseSpan; unchecking log fires its handler, so divs becomes editable iff auto is off, while the other X flags are kept |
| `AxisDialog.XAxisTypeChanged` | Software/PC_Application/Traces/xyplotaxisdialog.cpp:175-208 | both halves together, stated against `SupportedYAxis` of the new X quantity, including the X widget flags: kept on Frequency; otherwise divs is recomputed by the log handler when log was on, the rest kept; the X rule is preserved |
| `AxisDialog.XAxisTypeChangedIdempotent` | Software/PC_Application/Traces/xyplotaxisdialog.cpp:175-208 | running the handler a second time for the same item changes nothing |
| `AxisDialog.SpectrumAnalyzerLeavesFrequency` | Software/PC_Application/Traces/xyplotaxisdialog.cpp:175-208 | SA with Y1 on Magnitude, X switched to Time: Y1 becomes `Disabled`, span mode is left, log is off and disabled |
| `AxisDialog.Step` | Software/PC_Application/Traces/xyplotaxisdialog.cpp:46-111 | an edit keeps the form's shape, the source, the item lists and the X item flags; only an X type selection moves the X item |
| `AxisDialog.Run` | Software/PC_Application/Traces/xyplotaxisdialog.cpp:46-111 | a sequence of edits keeps the form's shape, the source and the item lists |
| `AxisDialog.StepY` | Software/PC_Application/Traces/xyplotaxisdialog.cpp:46-85 | an edit of a Y axis's widgets changes nothing outside that axis and its flags |
| `AxisDialog.StepX` | Software/PC_Application/Traces/xyplotaxisdialog.cpp:87-111 | an edit of the X auto, log, auto-mode or range widgets changes nothing outside the X controls and their flags, and never the X item |
| `AxisDialog.SelectYTypeTakesEffect` | Software/PC_Application/Traces/xyplotaxisdialog.cpp:46-53 | selecting a Y item that exists, is enabled and differs from the current one moves the axis to it with its flags on the rule, leaving the other axis and X alone; any other selection changes nothing |
| `AxisDialog.ToggleYAutoTakesEffect` | Software/PC_Application/Traces/xyplotaxisdialog.cpp:60-64 | toggling an enabled Y auto box flips auto and makes the range fields editable iff auto is now off; a disabled box changes nothing |
| `AxisDialog.ChooseYLogTakesEffect` | Software/PC_Application/Traces/xyplotaxisdialog.cpp:46-48 | Y log can always be chosen, linear only while its button is enabled; only the log flag of that axis changes |
| `AxisDialog.EditYRangeTakesEffect` | Software/PC_Application/Traces/xyplotaxisdialog.cpp:51-63 | Y min/max/divs can be typed iff those fields are enabled, and typing changes only those values |
| `AxisDialog.ToggleXAutoTakesEffect` | Software/PC_Application/Traces/xyplotaxisdialog.cpp:87-92 | toggling X auto always flips it, and the X flags then follow the rule |
| `AxisDialog.ChooseXLogTakesEffect` | Software/PC_Application/Traces/xyplotaxisdialog.cpp:109-111 | X linear can always be chosen, log only while enabled; the chosen value takes effect, a change makes divs editable iff linear is chosen and auto is off, the flags stay on the rule, and choosing the value already chosen changes nothing |
| `AxisDialog.SelectAutoModeTakesEffect` | Software/PC_Application/Traces/xyplotaxisdialog.cpp:194-202 | an auto-mode item is taken iff the selector is enabled and the item is enabled; only the selector's position changes |
| `AxisDialog.EditXRangeTakesEffect` | Software/PC_Application/Traces/xyplotaxisdialog.cpp:87-111 | X min/max can be typed iff enabled, X divs iff enabled; typing changes only those values |
| `AxisDialog.RangeEditsAreCommitted` | Software/PC_Application/Traces/xyplotaxisdialog.cpp:160-172 | range values typed into enabled fields are what accepting commits, for a Y axis and for X |
| `AxisDialog.RangeEditKeepsConsistent` | Software/PC_Application/Traces/xyplotaxisdialog.cpp:51-111 | typing range values keeps the dialog consistent |
| `AxisDialog.SelectXTypeRunsHandler` | Software/PC_Application/Traces/xyplotaxisdialog.cpp:108 | choosing an enabled, different X item runs the X type handler for it; choosing a missing, disabled or the current item changes nothing |
| `AxisDialog.RestrictionEstablishesConsistency` | Software/PC_Application/Traces/xyplotaxisdialog.cpp:175-208 | the X type handler leaves a form whose widgets followed the rules fully consistent for the new X quantity |
| `AxisDialog.SelectXTypeKeepsConsistent` | Software/PC_Application/Traces/xyplotaxisdialog.cpp:108 | selecting an X type keeps the dialog consistent |
| `AxisDialog.SelectYTypeKeepsConsistent` | Software/PC_Application/Traces/xyplotaxisdialog.cpp:46-79 | selecting an enabled Y item keeps the dialog consistent |
| `AxisDialog.ToggleYAutoKeepsConsistent` | Software/PC_Application/Traces/xyplotaxisdialog.cpp:60-85 | toggling an enabled Y auto check box keeps the dialog consistent |
| `AxisDialog.ChooseYLogKeepsConsistent` | Software/PC_Application/Traces/xyplotaxisdialog.cpp:47-48 | choosing Y log or linear keeps the dialog consistent |
| `AxisDialog.XEditKeepsConsistent` | Software/PC_Application/Traces/xyplotaxisdialog.cpp:87-111 | toggling X auto, choosing X log/linear or picking an enabled auto-mode item keeps the dialog consistent |
| `AxisDialog.StepKeepsConsistent` | Software/PC_Application/Traces/xyplotaxisdialog.cpp:46-111 | every edit keeps the dialog consistent |
| `AxisDialog.RunKeepsConsistent` | Software/PC_Application/Traces/xyplotaxisdialog.cpp:46-111 | any sequence of edits keeps the dialog consistent |
| `AxisDialog.IndexOf` | Software/PC_Application/Traces/xyplotaxisdialog.cpp:114 | the index at which a type box is set holds that type, and is its first occurrence |
| `AxisDialog.Accept` | Software/PC_Application/Traces/xyplotaxisdialog.cpp:157-173 | the committed X type is the selected one, the mode is Manual iff auto is unchecked, and a consistent dialog commits consistent settings |
| `AxisDialog.Open` | Software/PC_Application/Traces/xyplotaxisdialog.cpp:16-149 | the opened form has the shape every form has, for the given source and item lists |
| `AxisDialog.OpenAcceptRoundTrip` | Software/PC_Application/Traces/xyplotaxisdialog.cpp:114-172 | accepting right after opening commits the plot's settings unchanged |
| `AxisDialog.OpenConsistent` | Software/PC_Application/Traces/xyplotaxisdialog.cpp:36-149 | opening on consistent settings gives a consistent dialog |
| `AxisDialog.CommitsConsistentSettings` | Software/PC_Application/Traces/xyplotaxisdialog.cpp:16-173 | opening on consistent settings, making any edits and accepting commits consistent settings |

## Left out

- Toolkit plumbing is not modelled: `setupUi`, `setMaxVisibleItems`, the destructor, the `connect` calls and item-flag manipulation through the item model. Item enablement is a sequence of booleans. Both Y type boxes always get the same flags, so one sequence serves both.
- Axis names are not modelled. `AxisTypeToName` and `XAxisTypeFromName` are foreign helpers, so the items of a type box are the types themselves.
- Units and SI prefixes are not modelled (`AxisUnit`, `setUnit`, `setPrefixes`). Their helpers are not part of this model.
- Range values are not interpreted. The min, max and division values are `real` fields copied verbatim between plot and form; `setValueQuiet` and `value()` are treated as exact copies.
- `TraceXYPlot::setXAxis` and `setYAxis` are not part of this model. `Accept` returns the settings the dialog passes to them.
- The cancel path is not modelled. Cancelling commits nothing, so it needs no model.
- The initial state of the widgets is assumed, not derived. `Open` runs the X type handler before filling in the plot's values, as the constructor does. The values the filling overwrites come from the designer file, which is not part of this model; they are taken as item 0, unchecked and zero. The widgets' initial enabled flags are taken to follow the enablement rules. In the constructor those flags depend on designer defaults and on which signals happen to fire.
- `Open` keeps whatever the plot holds. The constructor fills in the plot's values after the X type handler has run, so an inconsistent plot gives an inconsistent dialog. For example, a Time axis with mode UseSpan opens with the disabled span item selected. Hence `OpenConsistent` requires `PlotConsistent`.
- Indices are unbounded `nat`, not `int`. The index of a non-empty combo box is never negative, and the auto-mode selector is taken to have exactly its two items.
- Y log button: never disabled, because the line that would disable it is commented out. The model follows the code.
- `XAxisMode` has just its three named values. The dialog does not switch on it with a default branch.
- `Compatibility.SelectableIffOffersQuantity`: requires a named X quantity, because the equivalence fails for unnamed ones. A network analyzer can select any X quantity, but an unnamed one offers only `Disabled`.

## Notes on the code

- An unnamed data source is a special case. The constructor disables unsupported X items only for a spectrum analyzer. `isSupported` returns false for every X quantity under such a source, yet all X items stay enabled. `XSelectable` models what the dialog does.
- The Y auto handler sets min, max and divisions from the check box alone and does not look at the Y type. Consistency relies on the auto check box being disabled while the Y type is `Disabled` (`YAutoHandlerIgnoresType`).
- The spectrum-analyzer scenario (Magnitude against Frequency, X switched to Time) exercises the handler directly. Through the dialog itself a spectrum analyzer cannot select Time, because that item is disabled.

=== FILE: axes.dfy ===
/**
 The enumerations the XY-plot axis dialog works with: the instrument that
 produced the traces, the quantity on the X axis, the quantity on a Y axis and
 the X axis range mode.

 The dialog's `switch` statements have `default:` branches and a final
 `return false`, so each enumeration that is switched on carries a catch-all
 constructor standing for any enumerator the dialog does not name.
 */
module Axes {

  /** The kind of instrument feeding the plot; fixed for the lifetime of a plot. */
  datatype DataSource =
    | VNA
    | SA
    | OtherSource(code: int)

  /** The independent quantity of the plot. */
  datatype XAxisType =
    | Frequency
    | Power
    | Time
    | Distance
    | OtherX(code: int)

  /** The dependent quantity of one Y axis; `Disabled` hides the axis. */
  datatype YAxisType =
    | Disabled
    | Magnitude
    | Phase
    | UnwrappedPhase
    | VSWR
    | Real
    | Imaginary
    | SeriesR
    | Reactance
    | Capacitance
    | Inductance
    | QualityFactor
    | GroupDelay
    | ImpulseReal
    | ImpulseMag
    | Step
    | Impedance
    | OtherY(code: int)

  /** How the X axis range is chosen. */
  datatype XAxisMode =
    | UseSpan
    | FitTraces
    | Manual

}

=== FILE: compatibility.dfy ===
/**
 The two compatibility tables of the axis dialog: which Y quantities can be
 shown against a given X quantity, and which X quantities can be chosen at
 all, both depending on the instrument that produced the data.
 */
module Compatibility {
  import opened Axes

  /** The quantities a network analyzer offers against frequency or power. */
  const FrequencyDomainY: set<YAxisType> :=
    {Magnitude, Phase, UnwrappedPhase, VSWR, Real, Imaginary,
     SeriesR, Reactance, Capacitance, Inductance, QualityFactor, GroupDelay}

  /** The quantities a network analyzer offers against time or distance. */
  const TimeDomainY: set<YAxisType> :=
    {ImpulseReal, ImpulseMag, Step, Impedance}

  /** Whether X quantity `x` can be selected in the X type box for `source`. */
  function IsSupported(source: DataSource, x: XAxisType): (r: bool)
    ensures source == VNA ==> r
    ensures source == SA ==> (r <==> x == Frequency)
    ensures source.OtherSource? ==> !r
  {
    if source == VNA then
      true
    else if source == SA then
      x == Frequency
    else
      false
  }

  /** The Y quantities that may be selected while X shows `x`. */
  function SupportedYAxis(source: DataSource, x: XAxisType): (r: set<YAxisType>)
    ensures Disabled in r
  {
    var always := {Disabled};
    match source
    case VNA =>
      (match x
       case Frequency | Power => always + FrequencyDomainY
       case Time | Distance => always + TimeDomainY
       case _ => always)
    case SA =>
      (match x
       case Frequency => always + {Magnitude}
       case _ => always)
    case _ => always
  }

  /**
   The same table read column by column: for each Y quantity, the instruments
   and X quantities under which it is offered.
   */
  predicate OfferedFor(source: DataSource, x: XAxisType, y: YAxisType) {
    match y
    case Disabled => true
    case Magnitude =>
      (source == VNA && (x == Frequency || x == Power)) || (source == SA && x == Frequency)
    case Phase | UnwrappedPhase | VSWR | Real | Imaginary
       | SeriesR | Reactance | Capacitance | Inductance | QualityFactor | GroupDelay =>
      source == VNA && (x == Frequency || x == Power)
    case ImpulseReal | ImpulseMag | Step | Impedance =>
      source == VNA && (x == Time || x == Distance)
    case OtherY(_) => false
  }

  /** The row-wise table and the column-wise table agree on every entry. */
  lemma SupportedYAxisByColumn(source: DataSource, x: XAxisType, y: YAxisType)
    ensures y in SupportedYAxis(source, x) <==> OfferedFor(source, x, y)
  {
  }

  /** The Frequency/Power table has exactly thirteen entries. */
  lemma FrequencyTableSize(x: XAxisType)
    requires x == Frequency || x == Power
    ensures |SupportedYAxis(VNA, x)| == 13
  {
  }

  /** The Time/Distance table has exactly five entries. */
  lemma TimeTableSize(x: XAxisType)
    requires x == Time || x == Distance
    ensures |SupportedYAxis(VNA, x)| == 5
  {
  }

  /** A spectrum analyzer never offers a quantity a network analyzer would not. */
  lemma SpectrumAnalyzerWithinNetworkAnalyzer(x: XAxisType)
    ensures SupportedYAxis(SA, x) <= SupportedYAxis(VNA, x)
  {
  }

  /**
   For a named X quantity, the X type can be selected exactly when it offers
   some Y quantity besides `Disabled`.
   */
  lemma SelectableIffOffersQuantity(source: DataSource, x: XAxisType)
    requires !x.OtherX?
    ensures IsSupported(source, x) <==> SupportedYAxis(source, x) != {Disabled}
  {
  }

  /**
   Every offered quantity besides `Disabled` belongs to the frequency-domain
   or the time-domain group, and is offered only for a selectable X type.
   */
  lemma OfferedQuantities(source: DataSource, x: XAxisType, y: YAxisType)
    requires y in SupportedYAxis(source, x) && y != Disabled
    ensures y in FrequencyDomainY || y in TimeDomainY
    ensures IsSupported(source, x)
  {
  }

  /** Time-domain quantities are never offered against frequency, and the reverse. */
  lemma DomainsDoNotMix(source: DataSource, x: XAxisType, y: YAxisType)
    requires y in SupportedYAxis(source, x)
    ensures y in FrequencyDomainY && y != Magnitude ==> x == Frequency || x == Power
    ensures y in TimeDomainY ==> x == Time || x == Distance
  {
  }

}

=== FILE: dialog.dfy ===
/**
 The XY-plot axis dialog as a pure state machine.

 A `Form` holds what the dialog's widgets show: the three type boxes with
 their items and item-enabled flags, the log/linear, auto and auto-mode
 choices, the range values (copied verbatim, never computed with) and the
 enabled flags of the range widgets. Opening the dialog builds a form from
 the plot's axis settings, every user edit is a `Step`, and accepting the
 dialog reads the settings back with `Accept`.

 The central invariant is `Consistent`: every Y selection is allowed for the
 selected X quantity, the type boxes offer exactly the allowed items, span
 mode and log scale are used only on a frequency axis, and the widget flags
 follow the enablement rules. It holds after opening a consistent plot and
 after every edit, so the dialog only ever commits consistent settings.
 */
module AxisDialog {
  import opened Axes
  import opened Compatibility
  import opened XAxisModes
  import opened Widgets

  /** One Y axis as the plot stores it. */
  datatype YAxisSettings = YAxisSettings(
    axisType: YAxisType, log: bool, autorange: bool,
    rangeMin: real, rangeMax: real, rangeDiv: real)

  /** The X axis as the plot stores it. */
  datatype XAxisSettings = XAxisSettings(
    axisType: XAxisType, mode: XAxisMode, log: bool,
    rangeMin: real, rangeMax: real, rangeDiv: real)

  /** All axis settings of one plot. */
  datatype PlotAxes = PlotAxes(x: XAxisSettings, y1: YAxisSettings, y2: YAxisSettings)

  /**
   The widgets of one Y axis: the current item of its type box, the log
   radio button, the auto check box and the min, max and divisions fields.
   */
  datatype YAxisForm = YAxisForm(
    index: nat, log: bool, auto: bool,
    min: real, max: real, divs: real)

  /**
   The widgets of the X axis: the current item of its type box, the log
   radio button, the auto check box, the current item of the auto-mode
   selector and the min, max and divisions fields.
   */
  datatype XAxisForm = XAxisForm(
    index: nat, log: bool, auto: bool, autoMode: nat,
    min: real, max: real, divs: real)

  /**
   The whole dialog. `yItems` and `xItems` are the items of the type boxes,
   one per enumerator in declaration order. Both Y type boxes hold the same
   items and always have the same items enabled, so `yItemEnabled` serves
   both. `spanItemEnabled` is the enabled flag of the auto-mode selector's
   "use span" item and `xLogEnabled` that of the X log radio button.
   */
  datatype Form = Form(
    source: DataSource,
    yItems: seq<YAxisType>,
    xItems: seq<XAxisType>,
    y1: YAxisForm,
    y2: YAxisForm,
    x: XAxisForm,
    yItemEnabled: seq<bool>,
    xItemEnabled: seq<bool>,
    spanItemEnabled: bool,
    xLogEnabled: bool,
    y1Widgets: YWidgets,
    y2Widgets: YWidgets,
    xWidgets: XWidgets)

  /**
   The shape every form has: item 0 of the Y type boxes is `Disabled`, every
   item has an enabled flag, and each box's current item is one of its items.
   The auto-mode selector has two items.
   */
  predicate WellFormed(f: Form) {
    && |f.yItems| > 0
    && f.yItems[0] == Disabled
    && |f.yItemEnabled| == |f.yItems|
    && |f.xItemEnabled| == |f.xItems|
    && f.y1.index < |f.yItems|
    && f.y2.index < |f.yItems|
    && f.x.index < |f.xItems|
    && f.x.autoMode < 2
  }

  /** The X quantity the form shows. */
  function XType(f: Form): XAxisType
    requires WellFormed(f)
  {
    f.xItems[f.x.index]
  }

  /** The Y quantities allowed for the X quantity the form shows. */
  function Supported(f: Form): set<YAxisType>
    requires WellFormed(f)
  {
    SupportedYAxis(f.source, XType(f))
  }

  /**
   Whether the X type box offers `x`: opening the dialog disables the
   unsupported items only when the source is a spectrum analyzer.
   */
  function XSelectable(source: DataSource, x: XAxisType): (r: bool)
    ensures source == SA ==> (r <==> x == Frequency)
    ensures source != SA ==> r
  {
    source != SA || IsSupported(source, x)
  }

  /**
   The invariant the dialog keeps between user edits, for a given set of
   allowed Y quantities.
   */
  predicate ConsistentFor(f: Form, supported: set<YAxisType>) {
    && WellFormed(f)
    && (forall i :: 0 <= i < |f.yItems| ==> (f.yItemEnabled[i] <==> f.yItems[i] in supported))
    && (forall i :: 0 <= i < |f.xItems| ==> (f.xItemEnabled[i] <==> XSelectable(f.source, f.xItems[i])))
    && f.xItemEnabled[f.x.index]
    && f.yItems[f.y1.index] in supported
    && f.yItems[f.y2.index] in supported
    && YRule(f.y1Widgets, f.y1.index, f.y1.auto)
    && YRule(f.y2Widgets, f.y2.index, f.y2.auto)
    && XRule(f.xWidgets, f.x.auto, f.x.log)
    && (f.spanItemEnabled <==> XType(f) == Frequency)
    && (f.xLogEnabled <==> XType(f) == Frequency)
    && (XType(f) != Frequency ==> f.x.autoMode != SpanItem && !f.x.log)
  }

  /** The invariant the dialog keeps between user edits. */
  predicate Consistent(f: Form) {
    WellFormed(f) && ConsistentFor(f, Supported(f))
  }

  /** The plot settings a consistent dialog may commit for `source`. */
  predicate PlotConsistent(source: DataSource, p: PlotAxes) {
    && p.y1.axisType in SupportedYAxis(source, p.x.axisType)
    && p.y2.axisType in SupportedYAxis(source, p.x.axisType)
    && XSelectable(source, p.x.axisType)
    && (p.x.axisType != Frequency ==> p.x.mode != UseSpan && !p.x.log)
  }

  /**
   One Y axis after its allowed set changed to `supported`: an unsupported
   selection moves to item 0, which fires the type box's handler.
   */
  function ResetIfUnsupported(items: seq<YAxisType>, supported: set<YAxisType>,
                              y: YAxisForm, w: YWidgets): (r: (YAxisForm, YWidgets))
    requires y.index < |items|
    ensures items[y.index] in supported ==> r == (y, w)
    ensures items[y.index] !in supported ==>
      r.0 == y.(index := 0) && YRule(r.1, 0, y.auto)
  {
    if items[y.index] in supported then (y, w)
    else (y.(index := 0), OnYTypeChanged(0, y.auto))
  }

  /**
   The Y half of the X type handler: enables exactly the items in
   `supported` and moves an unsupported selection to `Disabled`.
   */
  function RestrictYAxes(f: Form, supported: set<YAxisType>): (g: Form)
    requires WellFormed(f) && Disabled in supported
    ensures WellFormed(g)
    ensures g == f.(yItemEnabled := g.yItemEnabled, y1 := g.y1, y1Widgets := g.y1Widgets,
                    y2 := g.y2, y2Widgets := g.y2Widgets)
    ensures forall i :: 0 <= i < |g.yItems| ==> (g.yItemEnabled[i] <==> g.yItems[i] in supported)
    ensures g.yItems[g.y1.index] in supported && g.yItems[g.y2.index] in supported
    ensures f.yItems[f.y1.index] in supported ==> g.y1 == f.y1 && g.y1Widgets == f.y1Widgets
    ensures f.yItems[f.y1.index] !in supported ==>
      g.y1 == f.y1.(index := 0) && YRule(g.y1Widgets, 0, g.y1.auto)
    ensures f.yItems[f.y2.index] in supported ==> g.y2 == f.y2 && g.y2Widgets == f.y2Widgets
    ensures f.yItems[f.y2.index] !in supported ==>
      g.y2 == f.y2.(index := 0) && YRule(g.y2Widgets, 0, g.y2.auto)
  {
    var (y1, y1Widgets) := ResetIfUnsupported(f.yItems, supported, f.y1, f.y1Widgets);
    var (y2, y2Widgets) := ResetIfUnsupported(f.yItems, supported, f.y2, f.y2Widgets);
    f.(yItemEnabled := ItemFlags(f.yItems, y => y in supported),
       y1 := y1, y1Widgets := y1Widgets,
       y2 := y2, y2Widgets := y2Widgets)
  }

  /**
   The X half of the X type handler: on a frequency axis span mode and log
   scale become available; on any other axis span mode is left for "fit
   traces", log scale for linear, and both are disabled.
   */
  function RestrictXAxis(f: Form, frequency: bool): (g: Form)
    requires WellFormed(f)
    ensures WellFormed(g)
    ensures g == f.(x := g.x, xWidgets := g.xWidgets,
                    spanItemEnabled := g.spanItemEnabled, xLogEnabled := g.xLogEnabled)
    ensures g.spanItemEnabled == frequency && g.xLogEnabled == frequency
    ensures frequency ==> g.x == f.x && g.xWidgets == f.xWidgets
    ensures !frequency ==> g.x.autoMode != SpanItem && !g.x.log
    ensures !frequency ==> g.x == f.x.(autoMode := g.x.autoMode, log := false)
    ensures !frequency && f.x.autoMode != SpanItem ==> g.x.autoMode == f.x.autoMode
    ensures !frequency ==> DecodeMode(AutoControls(g.x.auto, g.x.autoMode)) != UseSpan
    ensures !frequency ==>
      && g.xWidgets.range == f.xWidgets.range && g.xWidgets.autoMode == f.xWidgets.autoMode
      && (g.xWidgets.divs <==> if f.x.log then !f.x.auto else f.xWidgets.divs)
    ensures XRule(f.xWidgets, f.x.auto, f.x.log) ==> XRule(g.xWidgets, g.x.auto, g.x.log)
  {
    if frequency then
      f.(spanItemEnabled := true, xLogEnabled := true)
    else
      var x := if f.x.autoMode == SpanItem then f.x.(autoMode := FitItem) else f.x;
      // Checking "linear" unchecks "log", which fires the log button's handler.
      var (x', xWidgets) :=
        if x.log then (x.(log := false), OnXLogToggled(f.xWidgets, false, x.auto))
        else (x, f.xWidgets);
      f.(x := x', xWidgets := xWidgets, spanItemEnabled := false, xLogEnabled := false)
  }

  /**
   The handler of the X type box changing to item `xIndex`: restricts the Y
   axes to the quantities allowed for the new X quantity, then the X axis to
   what that quantity supports. The range units it also sets are not
   modelled.
   */
  function XAxisTypeChanged(f: Form, xIndex: nat): (g: Form)
    requires WellFormed(f) && xIndex < |f.xItems|
    ensures WellFormed(g)
    ensures g.source == f.source && g.yItems == f.yItems && g.xItems == f.xItems
    ensures g.xItemEnabled == f.xItemEnabled && g.x.index == f.x.index
    ensures var s := SupportedYAxis(f.source, f.xItems[xIndex]);
      forall i :: 0 <= i < |g.yItems| ==> (g.yItemEnabled[i] <==> g.yItems[i] in s)
    ensures var s := SupportedYAxis(f.source, f.xItems[xIndex]);
      g.yItems[g.y1.index] in s && g.yItems[g.y2.index] in s
    ensures var s := SupportedYAxis(f.source, f.xItems[xIndex]);
      f.yItems[f.y1.index] in s ==> g.y1 == f.y1 && g.y1Widgets == f.y1Widgets
    ensures var s := SupportedYAxis(f.source, f.xItems[xIndex]);
      f.yItems[f.y1.index] !in s ==> g.y1 == f.y1.(index := 0) && YRule(g.y1Widgets, 0, g.y1.auto)
    ensures var s := SupportedYAxis(f.source, f.xItems[xIndex]);
      f.yItems[f.y2.index] in s ==> g.y2 == f.y2 && g.y2Widgets == f.y2Widgets
    ensures var s := SupportedYAxis(f.source, f.xItems[xIndex]);
      f.yItems[f.y2.index] !in s ==> g.y2 == f.y2.(index := 0) && YRule(g.y2Widgets, 0, g.y2.auto)
    ensures f.xItems[xIndex] == Frequency ==>
      g.spanItemEnabled && g.xLogEnabled && g.x == f.x && g.xWidgets == f.xWidgets
    ensures f.xItems[xIndex] != Frequency ==>
      !g.spanItemEnabled && !g.xLogEnabled && g.x.autoMode != SpanItem && !g.x.log
    ensures f.xItems[xIndex] != Frequency ==>
      g.x == f.x.(autoMode := g.x.autoMode, log := false)
      && (f.x.autoMode != SpanItem ==> g.x.autoMode == f.x.autoMode)
    ensures f.xItems[xIndex] != Frequency ==>
      DecodeMode(AutoControls(g.x.auto, g.x.autoMode)) != UseSpan
    ensures f.xItems[xIndex] != Frequency ==>
      g.xWidgets == (if f.x.log then f.xWidgets.(divs := !f.x.auto) else f.xWidgets)
    ensures XRule(f.xWidgets, f.x.auto, f.x.log) ==> XRule(g.xWidgets, g.x.auto, g.x.log)
  {
    var t := f.xItems[xIndex];
    RestrictXAxis(RestrictYAxes(f, SupportedYAxis(f.source, t)), t == Frequency)
  }

  /** Running the handler twice for the same item changes nothing more. */
  lemma XAxisTypeChangedIdempotent(f: Form, xIndex: nat)
    requires WellFormed(f) && xIndex < |f.xItems|
    ensures XAxisTypeChanged(XAxisTypeChanged(f, xIndex), xIndex) == XAxisTypeChanged(f, xIndex)
  {
  }

  /**
   With a spectrum analyzer showing Magnitude against frequency, switching X
   to time hides that Y axis, leaves span mode and disables log scale.
   */
  lemma SpectrumAnalyzerLeavesFrequency(f: Form, xIndex: nat)
    requires WellFormed(f) && xIndex < |f.xItems|
    requires f.source == SA && f.yItems[f.y1.index] == Magnitude && f.xItems[xIndex] == Time
    ensures var g := XAxisTypeChanged(f, xIndex);
      g.yItems[g.y1.index] == Disabled && g.y1.index == 0
      && g.x.autoMode != SpanItem && !g.xLogEnabled && !g.x.log
  {
  }

  /** Which of the two Y axes an edit is about. */
  datatype YSlot = Y1 | Y2

  /**
   The edits a user can make in the dialog: choosing an item of a type box or
   of the auto-mode selector, toggling an auto check box, choosing log or
   linear, and typing into the range fields. A Y axis's min, max and
   divisions fields are enabled together, so one edit sets all three; the X
   divisions field has a flag of its own.
   */
  datatype Event =
    | SelectYType(slot: YSlot, index: nat)
    | ToggleYAuto(slot: YSlot)
    | ChooseYLog(slot: YSlot, log: bool)
    | EditYRange(slot: YSlot, min: real, max: real, divs: real)
    | SelectXType(index: nat)
    | ToggleXAuto
    | ChooseXLog(log: bool)
    | SelectAutoMode(index: nat)
    | EditXRange(min: real, max: real)
    | EditXDivs(divs: real)

  function YAxisOf(f: Form, slot: YSlot): YAxisForm {
    if slot == Y1 then f.y1 else f.y2
  }

  function YWidgetsOf(f: Form, slot: YSlot): YWidgets {
    if slot == Y1 then f.y1Widgets else f.y2Widgets
  }

  function WithYAxis(f: Form, slot: YSlot, y: YAxisForm, w: YWidgets): Form {
    if slot == Y1 then f.(y1 := y, y1Widgets := w) else f.(y2 := y, y2Widgets := w)
  }

  /** The Y axis an edit of `slot` leaves alone. */
  function OtherSlot(slot: YSlot): YSlot {
    if slot == Y1 then Y2 else Y1
  }

  /** `g` differs from `f` at most in Y axis `slot` and that axis's widget flags. */
  predicate OnlyYAxisChanged(f: Form, g: Form, slot: YSlot) {
    g == WithYAxis(f, slot, YAxisOf(g, slot), YWidgetsOf(g, slot))
  }

  /** `g` differs from `f` at most in the X axis controls and their widget flags. */
  predicate OnlyXAxisChanged(f: Form, g: Form) {
    g == f.(x := g.x, xWidgets := g.xWidgets)
  }

  /**
   The dialog after the user attempts edit `e`. An edit of a disabled widget
   or item is not delivered and leaves the form as it is; a selection of the
   current item changes nothing and fires no handler.
   */
  function Step(f: Form, e: Event): (g: Form)
    requires WellFormed(f)
    ensures WellFormed(g)
    ensures g.source == f.source && g.yItems == f.yItems && g.xItems == f.xItems
    ensures g.xItemEnabled == f.xItemEnabled
    ensures !e.SelectXType? ==> g.x.index == f.x.index
  {
    match e
    case SelectYType(slot, _) => StepY(f, slot, e)
    case ToggleYAuto(slot) => StepY(f, slot, e)
    case ChooseYLog(slot, _) => StepY(f, slot, e)
    case EditYRange(slot, _, _, _) => StepY(f, slot, e)
    case SelectXType(i) =>
      if i < |f.xItems| && f.xItemEnabled[i] && i != f.x.index then
        XAxisTypeChanged(f.(x := f.x.(index := i)), i)
      else f
    case _ => StepX(f, e)
  }

  /** An edit of the widgets of Y axis `slot`; it changes nothing outside that axis. */
  function StepY(f: Form, slot: YSlot, e: Event): (g: Form)
    requires WellFormed(f)
    requires e.SelectYType? || e.ToggleYAuto? || e.ChooseYLog? || e.EditYRange?
    requires e.slot == slot
    ensures WellFormed(g)
    ensures OnlyYAxisChanged(f, g, slot)
  {
    var y := YAxisOf(f, slot);
    var w := YWidgetsOf(f, slot);
    match e
    case SelectYType(_, i) =>
      if i < |f.yItems| && f.yItemEnabled[i] && i != y.index then
        WithYAxis(f, slot, y.(index := i), OnYTypeChanged(i, y.auto))
      else f
    case ToggleYAuto(_) =>
      if w.auto then WithYAxis(f, slot, y.(auto := !y.auto), OnYAutoToggled(w, !y.auto))
      else f
    case ChooseYLog(_, log) =>
      // The log button is never disabled; the linear one can be.
      if log || w.linear then WithYAxis(f, slot, y.(log := log), w) else f
    case EditYRange(_, min, max, divs) =>
      if w.range then WithYAxis(f, slot, y.(min := min, max := max, divs := divs), w) else f
  }

  /**
   An edit of the X auto, log, auto-mode or range widgets; it changes nothing
   outside the X axis controls and their flags, and never the X item.
   */
  function StepX(f: Form, e: Event): (g: Form)
    requires WellFormed(f)
    requires e.ToggleXAuto? || e.ChooseXLog? || e.SelectAutoMode? || e.EditXRange? || e.EditXDivs?
    ensures WellFormed(g)
    ensures OnlyXAxisChanged(f, g) && g.x.index == f.x.index
  {
    match e
    case ToggleXAuto =>
      f.(x := f.x.(auto := !f.x.auto),
         xWidgets := OnXAutoToggled(!f.x.auto, !f.x.log))
    case ChooseXLog(log) =>
      // The linear button is never disabled; the log one can be.
      if log != f.x.log && (!log || f.xLogEnabled) then
        f.(x := f.x.(log := log), xWidgets := OnXLogToggled(f.xWidgets, log, f.x.auto))
      else f
    case SelectAutoMode(i) =>
      if f.xWidgets.autoMode && i < 2 && (i != SpanItem || f.spanItemEnabled) then
        f.(x := f.x.(autoMode := i))
      else f
    case EditXRange(min, max) =>
      if f.xWidgets.range then f.(x := f.x.(min := min, max := max)) else f
    case EditXDivs(divs) =>
      if f.xWidgets.divs then f.(x := f.x.(divs := divs)) else f
  }

  /** The dialog after a sequence of edits. */
  function Run(f: Form, events: seq<Event>): (g: Form)
    requires WellFormed(f)
    ensures WellFormed(g)
    ensures g.source == f.source && g.yItems == f.yItems && g.xItems == f.xItems
    decreases |events|
  {
    if events == [] then f else Run(Step(f, events[0]), events[1..])
  }

  /**
   The X type handler, run on a form whose widgets follow the enablement
   rules and whose X item is enabled, leaves the form consistent for the
   allowed set it was given.
   */
  lemma RestrictionEstablishesConsistency(f: Form, supported: set<YAxisType>)
    requires WellFormed(f) && Disabled in supported
    requires forall i :: 0 <= i < |f.xItems| ==> (f.xItemEnabled[i] <==> XSelectable(f.source, f.xItems[i]))
    requires f.xItemEnabled[f.x.index]
    requires YRule(f.y1Widgets, f.y1.index, f.y1.auto) && YRule(f.y2Widgets, f.y2.index, f.y2.auto)
    requires XRule(f.xWidgets, f.x.auto, f.x.log)
    ensures ConsistentFor(RestrictXAxis(RestrictYAxes(f, supported), XType(f) == Frequency), supported)
  {
  }

  /**
   Selecting an enabled, different X item runs the X type handler for it;
   selecting a missing, disabled or the current item changes nothing.
   */
  lemma SelectXTypeRunsHandler(f: Form, i: nat)
    requires WellFormed(f)
    ensures i < |f.xItems| && f.xItemEnabled[i] && i != f.x.index ==>
      var f' := f.(x := f.x.(index := i));
      Step(f, SelectXType(i))
      == RestrictXAxis(RestrictYAxes(f', SupportedYAxis(f.source, f.xItems[i])), XType(f') == Frequency)
    ensures !(i < |f.xItems| && f.xItemEnabled[i] && i != f.x.index) ==>
      Step(f, SelectXType(i)) == f
  {
  }

  /**
   Selecting a Y item takes effect exactly when the item exists, is enabled
   and differs from the current one: the axis moves to it and its type
   handler runs; the other axis and the X axis are untouched.
   */
  lemma SelectYTypeTakesEffect(f: Form, slot: YSlot, i: nat)
    requires WellFormed(f)
    ensures var g := Step(f, SelectYType(slot, i));
      var y := YAxisOf(f, slot);
      i < |f.yItems| && f.yItemEnabled[i] && i != y.index ==>
        && YAxisOf(g, slot) == y.(index := i)
        && YRule(YWidgetsOf(g, slot), i, y.auto)
        && YAxisOf(g, OtherSlot(slot)) == YAxisOf(f, OtherSlot(slot))
        && OnlyYAxisChanged(f, g, slot)
    ensures var g := Step(f, SelectYType(slot, i));
      !(i < |f.yItems| && f.yItemEnabled[i] && i != YAxisOf(f, slot).index) ==> g == f
  {
  }

  /**
   Toggling a Y auto check box takes effect exactly when the box is enabled:
   auto flips, the range fields become editable exactly when auto is now off,
   and nothing outside that axis changes.
   */
  lemma ToggleYAutoTakesEffect(f: Form, slot: YSlot)
    requires WellFormed(f)
    ensures var g := Step(f, ToggleYAuto(slot));
      var y := YAxisOf(f, slot);
      var w := YWidgetsOf(f, slot);
      w.auto ==>
        && YAxisOf(g, slot) == y.(auto := !y.auto)
        && YWidgetsOf(g, slot) == w.(range := !YAxisOf(g, slot).auto)
        && YAxisOf(g, OtherSlot(slot)) == YAxisOf(f, OtherSlot(slot))
        && OnlyYAxisChanged(f, g, slot)
    ensures !YWidgetsOf(f, slot).auto ==> Step(f, ToggleYAuto(slot)) == f
  {
  }

  /**
   Choosing Y log always takes effect, choosing linear only while the linear
   button is enabled; only the log flag of that axis changes.
   */
  lemma ChooseYLogTakesEffect(f: Form, slot: YSlot, log: bool)
    requires WellFormed(f)
    ensures var g := Step(f, ChooseYLog(slot, log));
      log || YWidgetsOf(f, slot).linear ==>
        && YAxisOf(g, slot) == YAxisOf(f, slot).(log := log)
        && YWidgetsOf(g, slot) == YWidgetsOf(f, slot)
        && OnlyYAxisChanged(f, g, slot)
    ensures !log && !YWidgetsOf(f, slot).linear ==> Step(f, ChooseYLog(slot, log)) == f
  {
  }

  /**
   Typing into a Y axis's range fields takes effect exactly when they are
   enabled, and changes nothing but the three values.
   */
  lemma EditYRangeTakesEffect(f: Form, slot: YSlot, min: real, max: real, divs: real)
    requires WellFormed(f)
    ensures var g := Step(f, EditYRange(slot, min, max, divs));
      YWidgetsOf(f, slot).range ==>
        && YAxisOf(g, slot) == YAxisOf(f, slot).(min := min, max := max, divs := divs)
        && YWidgetsOf(g, slot) == YWidgetsOf(f, slot)
        && OnlyYAxisChanged(f, g, slot)
    ensures !YWidgetsOf(f, slot).range ==> Step(f, EditYRange(slot, min, max, divs)) == f
  {
  }

  /**
   Toggling X auto always takes effect: auto flips and the X flags follow the
   rule for the new state; nothing else changes.
   */
  lemma ToggleXAutoTakesEffect(f: Form)
    requires WellFormed(f)
    ensures var g := Step(f, ToggleXAuto);
      && g.x == f.x.(auto := !f.x.auto)
      && XRule(g.xWidgets, g.x.auto, g.x.log)
      && OnlyXAxisChanged(f, g)
  {
  }

  /**
   Choosing X linear always takes effect, choosing log only while the log
   button is enabled; only the log flag and the divisions flag can change,
   and the X flags keep following the rule.
   */
  lemma ChooseXLogTakesEffect(f: Form, log: bool)
    requires WellFormed(f)
    ensures var g := Step(f, ChooseXLog(log));
      !log || f.xLogEnabled ==>
        && g.x == f.x.(log := log)
        && g.xWidgets.range == f.xWidgets.range && g.xWidgets.autoMode == f.xWidgets.autoMode
        && (log != f.x.log ==> (g.xWidgets.divs <==> !log && !f.x.auto))
        && (XRule(f.xWidgets, f.x.auto, f.x.log) ==> XRule(g.xWidgets, g.x.auto, g.x.log))
        && OnlyXAxisChanged(f, g)
    ensures log && !f.xLogEnabled ==> Step(f, ChooseXLog(log)) == f
    ensures log == f.x.log ==> Step(f, ChooseXLog(log)) == f
  {
  }

  /**
   Picking an auto-mode item takes effect exactly when the selector is
   enabled and the item is one of its two items and enabled ("use span" can
   be disabled); only the selector's position changes.
   */
  lemma SelectAutoModeTakesEffect(f: Form, i: nat)
    requires WellFormed(f)
    ensures var g := Step(f, SelectAutoMode(i));
      f.xWidgets.autoMode && i < 2 && (i != SpanItem || f.spanItemEnabled) ==>
        g.x == f.x.(autoMode := i) && g.xWidgets == f.xWidgets && OnlyXAxisChanged(f, g)
    ensures !(f.xWidgets.autoMode && i < 2 && (i != SpanItem || f.spanItemEnabled)) ==>
      Step(f, SelectAutoMode(i)) == f
  {
  }

  /**
   Typing into the X min/max or divisions fields takes effect exactly when the
   field is enabled, and changes nothing but the typed values.
   */
  lemma EditXRangeTakesEffect(f: Form, min: real, max: real, divs: real)
    requires WellFormed(f)
    ensures var g := Step(f, EditXRange(min, max));
      (f.xWidgets.range ==> g.x == f.x.(min := min, max := max) && g.xWidgets == f.xWidgets
                            && OnlyXAxisChanged(f, g))
      && (!f.xWidgets.range ==> g == f)
    ensures var g := Step(f, EditXDivs(divs));
      (f.xWidgets.divs ==> g.x == f.x.(divs := divs) && g.xWidgets == f.xWidgets
                           && OnlyXAxisChanged(f, g))
      && (!f.xWidgets.divs ==> g == f)
  {
  }

  /** The settings committed for Y axis `slot`. */
  function YSettingsOf(p: PlotAxes, slot: YSlot): YAxisSettings {
    if slot == Y1 then p.y1 else p.y2
  }

  /**
   Range values typed into enabled fields are what accepting the dialog
   commits, for a Y axis and for the X axis.
   */
  lemma RangeEditsAreCommitted(f: Form, slot: YSlot, min: real, max: real, divs: real)
    requires WellFormed(f)
    ensures YWidgetsOf(f, slot).range ==>
      var q := YSettingsOf(Accept(Step(f, EditYRange(slot, min, max, divs))), slot);
      q.rangeMin == min && q.rangeMax == max && q.rangeDiv == divs
    ensures f.xWidgets.range && f.xWidgets.divs ==>
      var q := Accept(Step(Step(f, EditXRange(min, max)), EditXDivs(divs))).x;
      q.rangeMin == min && q.rangeMax == max && q.rangeDiv == divs
  {
  }

  /** Selecting an X type keeps the dialog consistent. */
  lemma SelectXTypeKeepsConsistent(f: Form, i: nat)
    requires Consistent(f)
    ensures Consistent(Step(f, SelectXType(i)))
  {
  }

  /** Choosing a Y type keeps the dialog consistent. */
  lemma SelectYTypeKeepsConsistent(f: Form, slot: YSlot, i: nat, supported: set<YAxisType>)
    requires ConsistentFor(f, supported)
    ensures ConsistentFor(Step(f, SelectYType(slot, i)), supported)
  {
  }

  /** Toggling Y auto keeps the dialog consistent. */
  lemma ToggleYAutoKeepsConsistent(f: Form, slot: YSlot, supported: set<YAxisType>)
    requires ConsistentFor(f, supported)
    ensures ConsistentFor(Step(f, ToggleYAuto(slot)), supported)
  {
  }

  /** Choosing Y log or linear keeps the dialog consistent. */
  lemma ChooseYLogKeepsConsistent(f: Form, slot: YSlot, log: bool, supported: set<YAxisType>)
    requires ConsistentFor(f, supported)
    ensures ConsistentFor(Step(f, ChooseYLog(slot, log)), supported)
  {
  }

  /** An edit of the X auto, log or auto-mode controls keeps the dialog consistent. */
  lemma XEditKeepsConsistent(f: Form, e: Event, supported: set<YAxisType>)
    requires ConsistentFor(f, supported)
    requires e.ToggleXAuto? || e.ChooseXLog? || e.SelectAutoMode?
    ensures ConsistentFor(Step(f, e), supported)
  {
  }

  /** Typing range values keeps the dialog consistent. */
  lemma RangeEditKeepsConsistent(f: Form, e: Event, supported: set<YAxisType>)
    requires ConsistentFor(f, supported)
    requires e.EditYRange? || e.EditXRange? || e.EditXDivs?
    ensures ConsistentFor(Step(f, e), supported)
  {
  }

  /** Every edit keeps the dialog consistent. */
  lemma StepKeepsConsistent(f: Form, e: Event)
    requires Consistent(f)
    ensures Consistent(Step(f, e))
  {
    var g := Step(f, e);
    assert !e.SelectXType? ==> XType(g) == XType(f);
    match e
    case SelectXType(i) =>
      SelectXTypeKeepsConsistent(f, i);
    case SelectYType(slot, i) =>
      SelectYTypeKeepsConsistent(f, slot, i, Supported(f));
    case ToggleYAuto(slot) =>
      ToggleYAutoKeepsConsistent(f, slot, Supported(f));
    case ChooseYLog(slot, log) =>
      ChooseYLogKeepsConsistent(f, slot, log, Supported(f));
    case EditYRange(_, _, _, _) =>
      RangeEditKeepsConsistent(f, e, Supported(f));
    case EditXRange(_, _) =>
      RangeEditKeepsConsistent(f, e, Supported(f));
    case EditXDivs(_) =>
      RangeEditKeepsConsistent(f, e, Supported(f));
    case _ =>
      XEditKeepsConsistent(f, e, Supported(f));
  }

  /** Any sequence of edits keeps the dialog consistent. */
  lemma {:induction false} RunKeepsConsistent(f: Form, events: seq<Event>)
    requires Consistent(f)
    ensures Consistent(Run(f, events))
    decreases |events|
  {
    if events != [] {
      StepKeepsConsistent(f, events[0]);
      RunKeepsConsistent(Step(f, events[0]), events[1..]);
    }
  }

  /** The position of the first occurrence of `t` in `s`. */
  function IndexOf<T(==)>(s: seq<T>, t: T): (i: nat)
    requires t in s
    ensures i < |s| && s[i] == t
    ensures forall j :: 0 <= j < i ==> s[j] != t
  {
    if s[0] == t then 0 else 1 + IndexOf(s[1..], t)
  }

  /**
   The settings the dialog commits when accepted: the selected items, the
   decoded X mode, and the check boxes and range values as shown.
   */
  function Accept(f: Form): (p: PlotAxes)
    requires WellFormed(f)
    ensures p.x.axisType == XType(f)
    ensures p.x.mode == Manual <==> !f.x.auto
    ensures Consistent(f) ==> PlotConsistent(f.source, p)
  {
    PlotAxes(
      XAxisSettings(XType(f), DecodeMode(AutoControls(f.x.auto, f.x.autoMode)), f.x.log,
                    f.x.min, f.x.max, f.x.divs),
      YAxisSettings(f.yItems[f.y1.index], f.y1.log, f.y1.auto, f.y1.min, f.y1.max, f.y1.divs),
      YAxisSettings(f.yItems[f.y2.index], f.y2.log, f.y2.auto, f.y2.min, f.y2.max, f.y2.divs))
  }

  /**
   The dialog as it opens on plot settings `p`. The type boxes are filled,
   spectrum-analyzer X items that are not supported are disabled, the X type
   handler runs for the plot's X type, and only then are the plot's values
   filled in. The designer's initial values, which the filling overwrites,
   are taken as item 0, unchecked and zero; the widgets' initial enabled
   flags are taken to follow the enablement rules.
   */
  function Open(source: DataSource, yItems: seq<YAxisType>, xItems: seq<XAxisType>,
                p: PlotAxes): (f: Form)
    requires |yItems| > 0 && yItems[0] == Disabled
    requires p.x.axisType in xItems && p.y1.axisType in yItems && p.y2.axisType in yItems
    ensures WellFormed(f) && f.source == source && f.yItems == yItems && f.xItems == xItems
  {
    var xIndex := IndexOf(xItems, p.x.axisType);
    var blankY := YAxisForm(0, false, false, 0.0, 0.0, 0.0);
    var blank := Form(
      source, yItems, xItems, blankY, blankY,
      XAxisForm(xIndex, false, false, SpanItem, 0.0, 0.0, 0.0),
      ItemFlags(yItems, (y: YAxisType) => true),
      ItemFlags(xItems, x => XSelectable(source, x)),
      true, true,
      OnYTypeChanged(0, false), OnYTypeChanged(0, false),
      OnXAutoToggled(false, true));
    var g := XAxisTypeChanged(blank, xIndex);
    var y1Index := IndexOf(yItems, p.y1.axisType);
    var y2Index := IndexOf(yItems, p.y2.axisType);
    var c := EncodeMode(p.x.mode);
    g.(y1 := YAxisForm(y1Index, p.y1.log, p.y1.autorange, p.y1.rangeMin, p.y1.rangeMax, p.y1.rangeDiv),
       y2 := YAxisForm(y2Index, p.y2.log, p.y2.autorange, p.y2.rangeMin, p.y2.rangeMax, p.y2.rangeDiv),
       x := XAxisForm(xIndex, p.x.log, c.checked, c.index, p.x.rangeMin, p.x.rangeMax, p.x.rangeDiv),
       y1Widgets := OnYTypeChanged(y1Index, p.y1.autorange),
       y2Widgets := OnYTypeChanged(y2Index, p.y2.autorange),
       xWidgets := OnXAutoToggled(c.checked, !p.x.log))
  }

  /** Accepting the dialog right after opening it commits the plot's settings unchanged. */
  lemma OpenAcceptRoundTrip(source: DataSource, yItems: seq<YAxisType>,
                            xItems: seq<XAxisType>, p: PlotAxes)
    requires |yItems| > 0 && yItems[0] == Disabled
    requires p.x.axisType in xItems && p.y1.axisType in yItems && p.y2.axisType in yItems
    ensures Accept(Open(source, yItems, xItems, p)) == p
  {
  }

  /** Opening the dialog on consistent settings gives a consistent dialog. */
  lemma OpenConsistent(source: DataSource, yItems: seq<YAxisType>,
                       xItems: seq<XAxisType>, p: PlotAxes)
    requires |yItems| > 0 && yItems[0] == Disabled
    requires p.x.axisType in xItems && p.y1.axisType in yItems && p.y2.axisType in yItems
    requires PlotConsistent(source, p)
    ensures Consistent(Open(source, yItems, xItems, p))
  {
  }

  /**
   Opening the dialog on consistent settings, making any edits and accepting
   commits consistent settings.
   */
  lemma CommitsConsistentSettings(source: DataSource, yItems: seq<YAxisType>,
                                  xItems: seq<XAxisType>, p: PlotAxes, events: seq<Event>)
    requires |yItems| > 0 && yItems[0] == Disabled
    requires p.x.axisType in xItems && p.y1.axisType in yItems && p.y2.axisType in yItems
    requires PlotConsistent(source, p)
    ensures PlotConsistent(source, Accept(Run(Open(source, yItems, xItems, p), events)))
  {
    OpenConsistent(source, yItems, xItems, p);
    RunKeepsConsistent(Open(source, yItems, xItems, p), events);
  }

}

=== FILE: widgets.dfy ===
/**
 Which of the dialog's range widgets are editable.

 The dialog keeps these enabled flags up to date from several signal
 handlers, each reacting to one widget. This module models each handler as a
 function on the flags, states the rule they implement as one predicate per
 axis, and proves that each handler, fired after the edit it reacts to,
 leaves the flags following the rule.
 */
module Widgets {

  /**
   Enabled flags of one Y axis: the linear radio button, the auto check box,
   and the min, max and divisions fields, which are always switched together.
   The log radio button is never disabled.
   */
  datatype YWidgets = YWidgets(linear: bool, auto: bool, range: bool)

  /**
   Enabled flags of the X axis: the min and max fields (always switched
   together), the divisions field and the auto-mode selector.
   */
  datatype XWidgets = XWidgets(range: bool, divs: bool, autoMode: bool)

  /**
   The enablement rule for a Y axis whose type box shows item `index` (item 0
   is `Disabled`) and whose auto check box is `autoRange`: a hidden axis has
   every setting locked, and the range fields are editable only on a shown,
   manually ranged axis.
   */
  predicate YRule(w: YWidgets, index: int, autoRange: bool) {
    && (w.linear <==> index != 0)
    && (w.auto <==> index != 0)
    && (w.range <==> index != 0 && !autoRange)
  }

  /**
   The enablement rule for the X axis: min and max are editable in manual
   mode, divisions only in manual linear mode, and the auto-mode selector only
   in auto mode.
   */
  predicate XRule(w: XWidgets, autoRange: bool, log: bool) {
    && (w.range <==> !autoRange)
    && (w.divs <==> !autoRange && !log)
    && (w.autoMode <==> autoRange)
  }

  /**
   The handler of a Y type box changing to item `index`: it sets every flag
   of the axis, so the axis follows the rule whatever the flags were before.
   */
  function OnYTypeChanged(index: int, autoChecked: bool): (w: YWidgets)
    ensures YRule(w, index, autoChecked)
  {
    YWidgets(index != 0, index != 0, index != 0 && !autoChecked)
  }

  /**
   The handler of a Y auto check box being toggled to `checked`: only the
   range fields change, and they are editable exactly when auto is off.
   */
  function OnYAutoToggled(w: YWidgets, checked: bool): (v: YWidgets)
    ensures v.linear == w.linear && v.auto == w.auto
    ensures v.range <==> !checked
  {
    w.(range := !checked)
  }

  /**
   The handler of the X auto check box being toggled to `checked`: it sets
   every flag of the X axis, so the axis follows the rule whatever the flags
   were before.
   */
  function OnXAutoToggled(checked: bool, linearChecked: bool): (w: XWidgets)
    ensures XRule(w, checked, !linearChecked)
  {
    XWidgets(!checked, !checked && linearChecked, checked)
  }

  /**
   The handler of the X log radio button being toggled to `checked`: only the
   divisions field changes, and the axis keeps following the rule.
   */
  function OnXLogToggled(w: XWidgets, checked: bool, autoChecked: bool): (v: XWidgets)
    ensures v.range == w.range && v.autoMode == w.autoMode
    ensures v.divs <==> !checked && !autoChecked
    ensures XRule(w, autoChecked, !checked) ==> XRule(v, autoChecked, checked)
  {
    w.(divs := !checked && !autoChecked)
  }

  /**
   Toggling a Y auto check box keeps the axis following the rule, provided
   the check box could be toggled, that is, the axis is not `Disabled`.
   */
  lemma YAutoHandlerFollowsRule(w: YWidgets, index: int, autoChecked: bool)
    requires YRule(w, index, autoChecked) && index != 0
    ensures YRule(OnYAutoToggled(w, !autoChecked), index, !autoChecked)
  {
  }

  /**
   The Y auto handler does not look at the type: on a `Disabled` axis it
   unlocks the range fields against the rule. The dialog relies on the auto
   check box of such an axis being disabled.
   */
  lemma YAutoHandlerIgnoresType(w: YWidgets)
    requires YRule(w, 0, true)
    ensures !YRule(OnYAutoToggled(w, false), 0, false)
  {
  }

  /**
   Enabled flags for a list of combo box items, item `i` enabled exactly when
   `allowed` holds of it.
   */
  function ItemFlags<T>(items: seq<T>, allowed: T -> bool): (flags: seq<bool>)
    ensures |flags| == |items|
    ensures forall i :: 0 <= i < |items| ==> (flags[i] <==> allowed(items[i]))
  {
    if items == [] then [] else [allowed(items[0])] + ItemFlags(items[1..], allowed)
  }

}

=== FILE: xaxismode.dfy ===
/**
 How the dialog shows an X axis range mode: an "auto" check box plus an
 auto-mode selector whose item 0 is "use span" and item 1 is "fit traces".
 Opening the dialog encodes the plot's mode into these two controls;
 accepting it decodes them back.
 */
module XAxisModes {
  import opened Axes

  /** The "auto" check box and the current index of the auto-mode selector. */
  datatype AutoControls = AutoControls(checked: bool, index: nat)

  /** The auto-mode selector's item that selects span-based auto ranging. */
  const SpanItem: nat := 0

  /** The auto-mode selector's item that fits the range to the traces. */
  const FitItem: nat := 1

  /** The controls the dialog shows for `mode` when it opens. */
  function EncodeMode(mode: XAxisMode): (c: AutoControls)
    ensures c.checked <==> mode != Manual
    ensures c.index == SpanItem <==> mode == UseSpan
    ensures c.index == SpanItem || c.index == FitItem
  {
    AutoControls(mode != Manual, if mode == UseSpan then SpanItem else FitItem)
  }

  /** The mode the controls stand for when the dialog is accepted. */
  function DecodeMode(c: AutoControls): (mode: XAxisMode)
    ensures mode == Manual <==> !c.checked
    ensures mode == UseSpan <==> c.checked && c.index == SpanItem
    ensures mode == FitTraces <==> c.checked && c.index != SpanItem
  {
    if c.checked then
      if c.index == SpanItem then UseSpan else FitTraces
    else
      Manual
  }

  /** Opening and then accepting the dialog keeps the plot's mode. */
  lemma DecodeEncode(mode: XAxisMode)
    ensures DecodeMode(EncodeMode(mode)) == mode
  {
  }

  /**
   Checked controls whose selector holds one of its two items are exactly what
   encoding their own decoded mode produces.
   */
  lemma EncodeDecode(c: AutoControls)
    requires c.checked && c.index < 2
    ensures EncodeMode(DecodeMode(c)) == c
  {
  }

  /** With auto unchecked the selector position does not matter. */
  lemma SelectorIgnoredWhenManual(c: AutoControls, index: nat)
    requires !c.checked
    ensures DecodeMode(c) == DecodeMode(c.(index := index))
  {
  }

}
